=== FILE: README.md ===
# Topic-based delay queue on Redis — a Dafny model

This project models the job lifecycle of the delay queue in `delayqueue.go`.
A caller registers a handler per topic (`Register`) and schedules jobs
(`AddJob`). A promotion task per topic moves due jobs from the topic's sorted
set to its ready list. A dispatch task per topic pops ready entries, runs the
handler on the payload, and then either deletes the payload or schedules the
job again five seconds later.

A topic `t` uses three Redis keys:

- the sorted set `t` maps job id to the second at which the job is due;
- the hash `t + "hash"` maps job id to payload;
- the list `t + "list"` holds ready entries.

The model has five modules, one per file:

- `redis.dfy`, module `Redis`: the keyspace (`Db`, a map from key to a sorted
  set, a hash or a list) and each Redis command the queue uses, as a pure
  function. A command takes `up`, which says whether the call gets through; a
  call that does not get through changes nothing. A command on a key of the
  wrong kind fails with WRONGTYPE. A write that empties a collection deletes
  its key. `Tidy` says that no key holds an empty collection, and every command
  preserves it.
- `client.dfy`, module `Client`: class `Conn`, which owns the keyspace. It has
  one method per Go wrapper (`ZAdd`, `HExistsBool`, `HSetInterface`, `ZDelete`,
  `ZRangeByScore`, `ZRemRangeByScore`, `LPush`, `LPop`, `HGetString`, `HDel`),
  each proved to act as its Redis command.
- `delayqueue.dfy`, module `DelayQueue`: the jobs, callbacks and errors, and
  each queue operation as a pure function of the keyspace before it (`Admit`,
  `Promote`, `Dispatch`). Class `Queue` holds the handler map. Its methods
  `Register`, `AddJob`, `DelayTick` (one iteration of the promotion loop) and
  `ReadyTick` (one iteration of the dispatch loop) run the operation call by
  call against a `Conn`. Each is proved to end in exactly the keyspace the
  function gives.
- `properties.dfy`, module `QueueProperties`: what one call of each
  operation changes and leaves alone, including on every failure path.
- `lifecycle.dfy`, module `Lifecycle`: a job's path through admission,
  promotion and dispatch, and the two findings below.

The current time, the handler's verdict and the success of each store call are
inputs. `AdmitFaults`, `PromoteFaults` and `DispatchFaults` give the success of
each store call an operation makes.

The model follows the code as written, including three details that look unintended:

- The ready list is used as a stack. Both `LPush` and `LPop` work at the head.
- The duplicate check queries the key `topic`, not `topic + "hash"`, and
  ignores the query's error.
- Promotion pushes the positions `0 .. n-1` of the reply, not the job ids.

## Model

| member | source | states |
|---|---|---|
| `DelayQueue.Queue.constructor` | delayqueue.go:19-21 | A new queue has an empty handler map. |
| `DelayQueue.Queue.Register` | delayqueue.go:30-32 | The handler map becomes the old map with `topic` bound to the callback, replacing any earlier binding. |
| `DelayQueue.HashKey` | delayqueue.go:58 | The payload key `topic + "hash"` differs from the sorted-set key and starts with the topic. |
| `DelayQueue.ListKey` | delayqueue.go:87 | The ready-list key `topic + "list"` differs from both other keys of the topic. |
| `DelayQueue.Admit` | delayqueue.go:41-64 | AddJob succeeds iff the job is non-nil, its topic has a non-nil handler, HEXISTS on key `topic` does not answer true, and both writes can succeed. A refusal other than a store error writes nothing. Tidiness is preserved. |
| `DelayQueue.Schedule` | delayqueue.go:52-63 | The two writes succeed iff both calls get through on keys of the right kind. On success the id is due at `now + seconds` and the message is stored under the id. Every failure is a store error. |
| `DelayQueue.Queue.AddJob` | delayqueue.go:41-64 | Runs the checks and writes against the connection and ends in exactly the keyspace and error that `Admit` gives. |
| `DelayQueue.Decimal` | delayqueue.go:85-87 | The text pushed for a loop position is a non-empty string of decimal digits, `"0"` for position 0. |
| `DelayQueue.PushIndices` | delayqueue.go:85-88 | The push loop changes no key but the list key and keeps the keyspace tidy. |
| `DelayQueue.Countdown` | delayqueue.go:85-88 | The pushed texts end up in the order n-1, ..., 0, one per position. |
| `DelayQueue.Promote` | delayqueue.go:81-89 | A promotion tick changes only the topic's sorted set and ready list, and keeps the keyspace tidy. |
| `DelayQueue.Queue.DelayTick` | delayqueue.go:73-89 | One loop iteration ends in exactly the keyspace `Promote` gives, or changes nothing for a nil handler. The loop invariant ties each push to the function. |
| `DelayQueue.Dispatch` | delayqueue.go:110-125 | A dispatch tick changes only the topic's list, hash and sorted set, and keeps the keyspace tidy. |
| `DelayQueue.Queue.ReadyTick` | delayqueue.go:102-127 | One loop iteration ends in exactly the keyspace `Dispatch` gives with the registered handler, or changes nothing for a nil handler. |
| `Client.Conn.ZAdd` | delayqueue.go:54 | The connection's keyspace and error are those of ZADD. |
| `Client.Conn.HExistsBool` | delayqueue.go:48 | Answers whether the hash at the key has the field. Fails when the call does not get through or the key is not a hash. |
| `Client.Conn.HSetInterface` | delayqueue.go:58 | The connection's keyspace and error are those of HSET. |
| `Client.Conn.ZDelete` | delayqueue.go:60 | The connection's keyspace and error are those of ZREM. |
| `Client.Conn.ZRangeByScore` | delayqueue.go:82 | Lists every member scored in the range exactly once, or fails exactly when ZRANGEBYSCORE fails. |
| `Client.Conn.ZRemRangeByScore` | delayqueue.go:84 | The connection's keyspace and error are those of ZREMRANGEBYSCORE. |
| `Client.Conn.LPush` | delayqueue.go:87 | The connection's keyspace and error are those of LPUSH. |
| `Client.Conn.LPop` | delayqueue.go:110 | The connection's keyspace and reply are those of LPOP. |
| `Client.Conn.HGetString` | delayqueue.go:112 | Answers the field's value, or fails when the call does not get through, the key is not a hash, or the field is missing. |
| `Client.Conn.HDel` | delayqueue.go:124 | The connection's keyspace and error are those of HDEL. |
| `QueueProperties.AdmitRefusesWithoutWriting` | delayqueue.go:42-47 | A nil job, or a topic with no handler or a nil handler, returns its error and leaves the keyspace unchanged. |
| `QueueProperties.AdmitExistedOnlyOnTopicKey` | delayqueue.go:48-50 | "Existed" is returned iff the query got through and a hash under the bare topic key has the id. A failed query counts as "not existing". While that key holds the sorted set, no duplicate is ever reported. |
| `QueueProperties.AdmitSuccessWritesBothEntries` | delayqueue.go:52-63 | After a successful AddJob the id is due at `now + seconds`, the message is under the id in `topic + "hash"`, and every other member, field and key is unchanged. |
| `QueueProperties.AdmitInsertFailureWritesNothing` | delayqueue.go:54-57 | When the sorted-set insert fails, its error is returned and the keyspace, hash included, is unchanged. |
| `QueueProperties.AdmitPayloadFailureRollsBack` | delayqueue.go:58-62 | When the payload write fails, its error is returned and the hash is unchanged. The id is removed from the sorted set again, which restores the whole keyspace when the id was not scheduled before and no key held an empty collection. If that removal fails too, the id stays scheduled at `now + seconds` and the hash keeps whatever it held. On every such path no key other than the sorted set changes. |
| `QueueProperties.PushIndicesPrepends` | delayqueue.go:85-88 | When every push gets through, the list becomes the texts of n-1, ..., 0 followed by the old list. |
| `QueueProperties.PromoteIdleWhenNothingDue` | delayqueue.go:82-83 | A tick whose range read fails, or finds no entry in [0, now], changes nothing. |
| `QueueProperties.PromoteKeepsEntriesNotDue` | delayqueue.go:82-88 | Whatever fails, entries scored outside [0, now] keep their scores and the payload hash is untouched. |
| `QueueProperties.PromoteMovesDueEntries` | delayqueue.go:81-89 | When all calls get through, exactly the entries in [0, now] leave the sorted set. Exactly as many list entries as were due, the positions n-1, ..., 0, are added at the head of the list. |
| `QueueProperties.DispatchIdleOnEmptyList` | delayqueue.go:110-111 | A tick whose pop fails or finds no entry changes nothing. |
| `QueueProperties.DispatchPopsOne` | delayqueue.go:110 | A tick that pops takes exactly the head entry off the list, whatever the handler does. |
| `QueueProperties.DispatchSuccessDeletesPayload` | delayqueue.go:122-125 | On handler success the payload field of the popped id is deleted when the HDEL gets through, and the whole hash is as before when it does not. Other fields stay, the sorted set is untouched, and no key but the list and the hash changes. |
| `QueueProperties.DispatchFailureReschedules` | delayqueue.go:115-121 | On handler failure the popped id is due at `now + 5`, other members stay, and the hash is untouched. If that ZADD fails, the sorted set is unchanged. In every case only the list and the sorted set may change. |
| `Lifecycle.DuplicateAdmitted` | delayqueue.go:48 | As written, admitting the same (topic, id) twice succeeds both times. The second call overwrites the due time and the payload. |
| `Lifecycle.AdmitChecked` | delayqueue.go:41-64 | Corrected AddJob: for a non-nil job on a registered topic, "existed" is returned iff the HEXISTS query on the payload hash gets through and the hash has the id. A refusal other than a store error writes nothing. On success it writes what AddJob writes. Tidiness is preserved. |
| `Lifecycle.DuplicateRejected` | delayqueue.go:48-50 | With the corrected check, and when the second HEXISTS query gets through, a second admission of an admitted (topic, id) returns "existed" and writes nothing. |
| `Lifecycle.PushIds` | delayqueue.go:85-88 | The corrected push loop changes only the list key. |
| `Lifecycle.PromoteIds` | delayqueue.go:81-89 | The corrected promotion tick changes only the topic's sorted set and list. |
| `Lifecycle.PushIdsPrepends` | delayqueue.go:85-88 | When every push gets through, the list becomes the pushed ids in reverse followed by the old list. |
| `Lifecycle.PromoteIdsRemovesDue` | delayqueue.go:82-84 | Corrected tick, sorted set: when the range read and the removal get through, a member loses its score iff its score is in [0, now]; all others keep theirs. |
| `Lifecycle.PromoteIdsPushesDue` | delayqueue.go:85-88 | Corrected tick, list: when every call gets through, the list becomes the due ids, in reverse of the order read, followed by the old list. |
| `Lifecycle.PromoteIdsMovesDueIds` | delayqueue.go:81-89 | Corrected. When every call gets through and the set and list keys hold the right kinds: exactly the entries in [0, now] leave the sorted set, and exactly their ids, each once, are added at the head of the list. |
| `Lifecycle.IndexPromotionStrandsJob` | delayqueue.go:85-87 | As written, for a registered topic whose three keys are unused, a job whose id is not `"0"`, a due time in [0, tick] and every store call getting through: after admission, one promotion tick and one dispatch tick, the job still has its payload but is neither scheduled nor ready, whatever the handler answers. |
| `Lifecycle.CompletedJobLeavesNoTrace` | delayqueue.go:110-125 | Corrected path, for a tidy keyspace, a registered topic whose three keys are unused, a non-empty job id, a due time in [0, tick] and every store call getting through: admission, one promotion tick and one dispatch tick with a handler that accepts the message restore the keyspace to exactly what it was before admission. |
| `Lifecycle.FailedJobRescheduled` | delayqueue.go:115-121 | Corrected path under the same conditions, with a handler that rejects the message: the job ends up due at `later + 5`, its payload is kept, and the list is empty. |

## Findings

| source | as written | input that shows it | evidently intended | confidence | as-written member | corrected member |
|---|---|---|---|---|---|---|
| delayqueue.go:48 | The duplicate check calls HEXISTS on `job.Topic`. That key holds the sorted set, so the call fails with WRONGTYPE or answers false, and its error is dropped. | A registered topic with unused keys, and the same job added twice with all calls succeeding: both calls return nil. | Check `job.Topic + "hash"`, where the payload lives. | high (proved on the model; not executed) | `Lifecycle.DuplicateAdmitted` | `Lifecycle.DuplicateRejected` |
| delayqueue.go:85-87 | `for id := range vals` binds the position in the slice, so LPUSH receives "0", "1", ... instead of job ids. | Topic `t` with unused keys, and job id "a" due at the promotion tick. The list receives "0". Dispatch then reads payload field "0". After this promotion tick and dispatch tick, job "a" keeps its payload but is neither scheduled nor ready. Promotion only pushes decimal positions, so an id like "a" is never popped later either. An id that is a decimal text, such as "1", is reached only when a later promotion moves enough entries at once. | Iterate over the values (`for _, id := range vals`). | high (proved on the model; not executed) | `Lifecycle.IndexPromotionStrandsJob` | `Lifecycle.CompletedJobLeavesNoTrace` |

## Left out

- Goroutines, tickers, `sync.WaitGroup` and the endless loops of `NewQueue`, `DelayHandle` and `ReadyHandle` are concurrency plumbing. One loop iteration is one method call. The `isMaster` switch, which decides whether promotion runs at all, is not modelled. Each task reads its handler once, before its loop, and the topics polled are fixed when the tasks start. `Queue.DelayTick` and `Queue.ReadyTick` read the handler map at every tick instead, so the two agree only when no `Register` call comes after the tasks start.
- Races between promotion and dispatch, or between processes sharing a topic, are not modelled. The model is sequential.
- `context.WithTimeout` and `cancle()` are not modelled. A handler is a function from message to success. A timeout is a handler that reports failure. A handler whose verdict depends on anything but its message, such as time or outside state, is not modelled.
- `time.Now()` is a parameter (`now`). The dispatch tick's `now` is the time read just before the retry ZADD.
- Logging (`logs.Info`, `logs.Error`) and the `GlobalDelayQueue` global are not modelled.
- The bodies of the Redis wrapper functions are not part of this model. They are assumed to issue one Redis command each: `ZAdd` ZADD, `HExistsBool` HEXISTS, `HSetInterface` HSET, `ZDelete` ZREM, `ZRangeByScore` ZRANGEBYSCORE, `ZRemRangeByScore` ZREMRANGEBYSCORE, `LPush` LPUSH, `LPop` LPOP, `HGetString` HGET and `HDel` HDEL. They are also assumed, on error, to return the zero value (`false`, `""` or an empty slice).
- A store call that fails after Redis applied it, such as a timeout after a write, is not modelled. A failed call has no effect.
- Scores are unbounded integers. The model has no int64 overflow of `now + Seconds` and no float64 precision loss in Redis scores.
- ZRANGEBYSCORE returns members by score and then by name. The model leaves the order open: as written only the number of members matters, and the corrected promotion is proved for any order.
- The error texts of AddJob are constructors of `AdmitError` rather than strings.

=== FILE: client.dfy ===
/**
 * The package's Redis wrapper functions, as methods of one connection object
 * that owns the keyspace. Each wrapper issues one Redis command; `up` says
 * whether that round trip gets through. Readers change nothing; writers change
 * `db` exactly as the command does.
 */
module Client {
  import opened Redis

  /** `vs` lists every member of `s` exactly once, in some order. */
  predicate Enumerates(vs: seq<string>, s: set<string>) {
    && |vs| == |s|
    && (forall i :: 0 <= i < |vs| ==> vs[i] in s)
    && (forall m :: m in s ==> m in vs)
  }

  function Outcome(r: Reply<()>): Option<StoreError> {
    if r.Ok? then None else Some(r.error)
  }

  class Conn {
    var db: Db

    constructor (init: Db)
      ensures db == init
    {
      db := init;
    }

    method ZAdd(key: string, score: int, member: string, up: bool) returns (err: Option<StoreError>)
      modifies this
      ensures Step(db, if err.None? then Ok(()) else Err(err.value)) == Redis.ZAdd(old(db), key, member, score, up)
    {
      var s := Redis.ZAdd(db, key, member, score, up);
      db := s.db;
      err := Outcome(s.reply);
    }

    method ZDelete(key: string, member: string, up: bool) returns (err: Option<StoreError>)
      modifies this
      ensures Step(db, if err.None? then Ok(()) else Err(err.value)) == Redis.ZRem(old(db), key, member, up)
    {
      var s := Redis.ZRem(db, key, member, up);
      db := s.db;
      err := Outcome(s.reply);
    }

    /**
     * The members scored within [min, max], collected one at a time from the
     * reply; their order is whatever the server sends and is left open here.
     */
    method ZRangeByScore(key: string, min: int, max: int, up: bool) returns (r: Reply<seq<string>>)
      ensures r.Ok? <==> up && FitsZSet(db, key)
      ensures r.Err? ==> Redis.ZRangeByScore(db, key, min, max, up) == Err(r.error)
      ensures r.Ok? ==> Enumerates(r.value, Redis.ZRangeByScore(db, key, min, max, up).value)
    {
      var reply := Redis.ZRangeByScore(db, key, min, max, up);
      if reply.Err? {
        return Err(reply.error);
      }
      var rest, vals := reply.value, [];
      while rest != {}
        invariant rest <= reply.value
        invariant Enumerates(vals, reply.value - rest)
        decreases |rest|
      {
        var m :| m in rest;
        assert reply.value - (rest - {m}) == (reply.value - rest) + {m};
        vals, rest := vals + [m], rest - {m};
      }
      assert reply.value - rest == reply.value;
      return Ok(vals);
    }

    method ZRemRangeByScore(key: string, min: int, max: int, up: bool) returns (err: Option<StoreError>)
      modifies this
      ensures Step(db, if err.None? then Ok(()) else Err(err.value)) == Redis.ZRemRangeByScore(old(db), key, min, max, up)
    {
      var s := Redis.ZRemRangeByScore(db, key, min, max, up);
      db := s.db;
      err := Outcome(s.reply);
    }

    method HExistsBool(key: string, field: string, up: bool) returns (r: Reply<bool>)
      ensures r.Ok? <==> up && FitsHash(db, key)
      ensures r.Ok? ==> (r.value <==> field in Fields(db, key))
      ensures r == Redis.HExists(db, key, field, up)
    {
      r := Redis.HExists(db, key, field, up);
    }

    method HSetInterface(key: string, field: string, value: string, up: bool) returns (err: Option<StoreError>)
      modifies this
      ensures Step(db, if err.None? then Ok(()) else Err(err.value)) == Redis.HSet(old(db), key, field, value, up)
    {
      var s := Redis.HSet(db, key, field, value, up);
      db := s.db;
      err := Outcome(s.reply);
    }

    method HGetString(key: string, field: string, up: bool) returns (r: Reply<string>)
      ensures r.Ok? <==> up && FitsHash(db, key) && field in Fields(db, key)
      ensures r.Ok? ==> r.value == Fields(db, key)[field]
      ensures r == Redis.HGet(db, key, field, up)
    {
      r := Redis.HGet(db, key, field, up);
    }

    method HDel(key: string, field: string, up: bool) returns (err: Option<StoreError>)
      modifies this
      ensures Step(db, if err.None? then Ok(()) else Err(err.value)) == Redis.HDel(old(db), key, field, up)
    {
      var s := Redis.HDel(db, key, field, up);
      db := s.db;
      err := Outcome(s.reply);
    }

    method LPush(key: string, value: string, up: bool) returns (err: Option<StoreError>)
      modifies this
      ensures Step(db, if err.None? then Ok(()) else Err(err.value)) == Redis.LPush(old(db), key, value, up)
    {
      var s := Redis.LPush(db, key, value, up);
      db := s.db;
      err := Outcome(s.reply);
    }

    method LPop(key: string, up: bool) returns (r: Reply<string>)
      modifies this
      ensures Step(db, r) == Redis.LPop(old(db), key, up)
    {
      var s := Redis.LPop(db, key, up);
      db := s.db;
      r := s.reply;
    }
  }
}

=== FILE: delayqueue.dfy ===
/**
 * The job lifecycle of the topic-based delay queue, as transitions on the Redis
 * keyspace. A topic `t` uses three keys: the sorted set `t` (job id -> the
 * second at which it is due), the hash `t + "hash"` (job id -> payload) and the
 * list `t + "list"` (ready entries). Each function below is one operation of the
 * queue as a pure function of the keyspace before it; the class `Queue` runs the
 * same operations step by step against a `Client.Conn`, and its methods are
 * proved to end in exactly the keyspace these functions give.
 */
module DelayQueue {
  import opened Redis
  import Client

  /** Seconds a job waits before it is retried after its handler failed. */
  const RetryDelay: int := 5

  datatype JobItem = JobItem(topic: string, id: string, seconds: int, message: string)

  /** A registered handler, or nil; `run(message)` is true when it returns no error. */
  datatype Callback = Nil | Func(run: string -> bool)

  /** The errors AddJob returns. */
  datatype AdmitError =
    | JobIsNil                      // "job is nil"
    | NotRegistered(topic: string)  // "topic:<topic> ..." (no handler)
    | Existed(id: string)           // "job: <id> existed"
    | StoreFailed(cause: StoreError)

  /** The keyspace after AddJob and what it returned (None: nil error). */
  datatype Admission = Admission(db: Db, err: Option<AdmitError>)

  /** Which store calls of an operation get through. */
  datatype AdmitFaults = AdmitFaults(existsUp: bool, addUp: bool, setUp: bool, undoUp: bool)
  datatype PromoteFaults = PromoteFaults(rangeUp: bool, removeUp: bool, pushUp: nat -> bool)
  datatype DispatchFaults = DispatchFaults(popUp: bool, getUp: bool, writeUp: bool)

  function HashKey(topic: string): (k: string)
    ensures k != topic && |k| == |topic| + 4 && k[..|topic|] == topic
  {
    topic + "hash"
  }

  function ListKey(topic: string): (k: string)
    ensures k != topic && k != HashKey(topic) && |k| == |topic| + 4 && k[..|topic|] == topic
  {
    assert (topic + "list")[|topic|] == 'l' && HashKey(topic)[|topic|] == 'h';
    topic + "list"
  }

  /** A nil or missing entry in the handler map both read as "no handler". */
  predicate Registered(handles: map<string, Callback>, topic: string) {
    topic in handles && handles[topic].Func?
  }

  /** The decimal text of `n`, as a number is written when pushed onto a list. */
  function Decimal(n: nat): (s: string)
    ensures |s| > 0
    ensures forall i :: 0 <= i < |s| ==> '0' <= s[i] <= '9'
    ensures n < 10 ==> s == ["0123456789"[n]]
  {
    if n < 10 then ["0123456789"[n]] else Decimal(n / 10) + ["0123456789"[n % 10]]
  }

  // ---------------------------------------------------------------- AddJob

  /**
   * AddJob: the three checks in order (nil job, registered topic, existing
   * job), then the scheduled entry, then the payload, undoing the scheduled
   * entry when the payload cannot be written. The existence check asks HEXISTS
   * on the key `topic` itself, and a failed check reads as "not there".
   */
  function Admit(db: Db, handles: map<string, Callback>, job: Option<JobItem>, now: int, f: AdmitFaults): (r: Admission)
    ensures r.err.None? <==>
              && job.Some? && Registered(handles, job.value.topic)
              && HExists(db, job.value.topic, job.value.id, f.existsUp) != Ok(true)
              && f.addUp && FitsZSet(db, job.value.topic)
              && f.setUp && FitsHash(db, HashKey(job.value.topic))
    ensures r.err.Some? && !r.err.value.StoreFailed? ==> r.db == db
    ensures Tidy(db) ==> Tidy(r.db)
  {
    if job.None? then Admission(db, Some(JobIsNil))
    else if !Registered(handles, job.value.topic) then Admission(db, Some(NotRegistered(job.value.topic)))
    else
      var present := HExists(db, job.value.topic, job.value.id, f.existsUp);
      if present.Ok? && present.value then Admission(db, Some(Existed(job.value.id)))
      else Schedule(db, job.value, now, f)
  }

  /** The two writes of AddJob and the compensating delete. */
  function Schedule(db: Db, job: JobItem, now: int, f: AdmitFaults): (r: Admission)
    ensures r.err.None? <==> f.addUp && FitsZSet(db, job.topic) && f.setUp && FitsHash(db, HashKey(job.topic))
    ensures r.err.Some? ==> r.err.value.StoreFailed?
    ensures r.err.None? ==> ScoreOf(r.db, job.topic, job.id) == Some(now + job.seconds)
    ensures r.err.None? ==> FieldOf(r.db, HashKey(job.topic), job.id) == Some(job.message)
    ensures Tidy(db) ==> Tidy(r.db)
  {
    var added := ZAdd(db, job.topic, job.id, now + job.seconds, f.addUp);
    if added.reply.Err? then Admission(added.db, Some(StoreFailed(added.reply.error)))
    else
      var stored := HSet(added.db, HashKey(job.topic), job.id, job.message, f.setUp);
      if stored.reply.Err? then
        Admission(ZRem(stored.db, job.topic, job.id, f.undoUp).db, Some(StoreFailed(stored.reply.error)))
      else Admission(stored.db, None)
  }

  // ------------------------------------------------------------- promotion

  /**
   * Pushes the decimal texts of from, from + 1, ..., to - 1 onto the head of
   * the list at `key`, one LPUSH each, ignoring the ones that fail.
   */
  function PushIndices(db: Db, key: string, from: nat, to: nat, up: nat -> bool): (r: Db)
    ensures r - {key} == db - {key}
    ensures Tidy(db) ==> Tidy(r)
    decreases (to as int) - from
  {
    if from >= to then db
    else PushIndices(LPush(db, key, Decimal(from), up(from)).db, key, from + 1, to, up)
  }

  /** The decimal texts of to - 1, ..., from: what PushIndices leaves at the head of the list. */
  function Countdown(from: nat, to: nat): (r: seq<string>)
    ensures |r| == if from <= to then to - from else 0
    ensures forall k :: 0 <= k < |r| ==> (r[k] == Decimal(to - 1 - k))
    decreases (to as int) - from
  {
    if from >= to then [] else Countdown(from + 1, to) + [Decimal(from)]
  }

  /**
   * One tick of the promotion task of `topic`: read the entries due in
   * [0, now]; when there are some, remove that score range and push one list
   * entry per entry read. The loop variable ranges over the positions of the
   * reply, so what is pushed is 0, 1, ..., n - 1 and not the job ids. A failed
   * read reads as no entries; every other failure is ignored.
   */
  function Promote(db: Db, topic: string, now: int, f: PromoteFaults): (r: Db)
    ensures r - {topic, ListKey(topic)} == db - {topic, ListKey(topic)}
    ensures Tidy(db) ==> Tidy(r)
  {
    var vals := ZRangeByScore(db, topic, 0, now, f.rangeUp);
    var n := if vals.Ok? then |vals.value| else 0;
    if n == 0 then db
    else
      var removed := ZRemRangeByScore(db, topic, 0, now, f.removeUp).db;
      var pushed := PushIndices(removed, ListKey(topic), 0, n, f.pushUp);
      AgreeOutside(removed, db, {topic}, {topic, ListKey(topic)});
      AgreeOutside(pushed, removed, {ListKey(topic)}, {topic, ListKey(topic)});
      pushed
  }

  // -------------------------------------------------------------- dispatch

  /** The ready entry one pop yields; a failed or empty pop yields "". */
  function PoppedId(db: Db, topic: string, popUp: bool): string {
    var popped := LPop(db, ListKey(topic), popUp);
    if popped.reply.Ok? then popped.reply.value else ""
  }

  /** The payload one HGET yields; a failed read or missing field yields "". */
  function Payload(db: Db, topic: string, id: string, getUp: bool): string {
    var got := HGet(db, HashKey(topic), id, getUp);
    if got.Ok? then got.value else ""
  }

  /**
   * One tick of the dispatch task of `topic` with handler `run`: pop a ready
   * entry; an empty one ends the tick. Otherwise read the payload, run the
   * handler, and on success delete the payload field, on failure put the id
   * back in the sorted set due RetryDelay seconds after `now`. The error of
   * that last write is ignored.
   */
  function Dispatch(db: Db, run: string -> bool, topic: string, now: int, f: DispatchFaults): (r: Db)
    ensures r - {ListKey(topic), HashKey(topic), topic} == db - {ListKey(topic), HashKey(topic), topic}
    ensures Tidy(db) ==> Tidy(r)
  {
    var popped := LPop(db, ListKey(topic), f.popUp).db;
    var jobId := PoppedId(db, topic, f.popUp);
    if jobId == "" then popped
    else if run(Payload(popped, topic, jobId, f.getUp)) then HDel(popped, HashKey(topic), jobId, f.writeUp).db
    else ZAdd(popped, topic, jobId, now + RetryDelay, f.writeUp).db
  }

  // ---------------------------------------------------------------- Queue

  /** The queue object: its handler map, updated in place by Register. */
  class Queue {
    var handles: map<string, Callback>

    /** NewQueue without the background tasks: an empty handler map. */
    constructor ()
      ensures handles == map[]
    {
      handles := map[];
    }

    method Register(topic: string, call: Callback)
      modifies this
      ensures handles == old(handles)[topic := call]
    {
      handles := handles[topic := call];
    }

    method AddJob(conn: Client.Conn, job: Option<JobItem>, now: int, f: AdmitFaults) returns (err: Option<AdmitError>)
      modifies conn
      ensures Admission(conn.db, err) == Admit(old(conn.db), handles, job, now, f)
    {
      if job.None? {
        return Some(JobIsNil);
      }
      var j := job.value;
      if !(j.topic in handles && handles[j.topic].Func?) {
        return Some(NotRegistered(j.topic));
      }
      var present := conn.HExistsBool(j.topic, j.id, f.existsUp);
      if present.Ok? && present.value {
        return Some(Existed(j.id));
      }
      var delayTime := now + j.seconds;
      var added := conn.ZAdd(j.topic, delayTime, j.id, f.addUp);
      if added.Some? {
        return Some(StoreFailed(added.value));
      }
      var stored := conn.HSetInterface(HashKey(j.topic), j.id, j.message, f.setUp);
      if stored.Some? {
        var _ := conn.ZDelete(j.topic, j.id, f.undoUp);
        return Some(StoreFailed(stored.value));
      }
      return None;
    }

    /** One iteration of the promotion task of `topic`; the task exits at once for a nil handler. */
    method DelayTick(conn: Client.Conn, topic: string, now: int, f: PromoteFaults)
      requires topic in handles
      modifies conn
      ensures conn.db == if handles[topic].Nil? then old(conn.db) else Promote(old(conn.db), topic, now, f)
    {
      if handles[topic].Nil? {
        return;
      }
      var reply := conn.ZRangeByScore(topic, 0, now, f.rangeUp);
      var vals := if reply.Ok? then reply.value else [];
      if |vals| != 0 {
        var _ := conn.ZRemRangeByScore(topic, 0, now, f.removeUp);
        var id := 0;
        while id < |vals|
          invariant 0 <= id <= |vals|
          invariant PushIndices(conn.db, ListKey(topic), id, |vals|, f.pushUp) == Promote(old(conn.db), topic, now, f)
        {
          var _ := conn.LPush(ListKey(topic), Decimal(id), f.pushUp(id));
          id := id + 1;
        }
      }
    }

    /** One iteration of the dispatch task of `topic`; the task exits at once for a nil handler. */
    method ReadyTick(conn: Client.Conn, topic: string, now: int, f: DispatchFaults)
      requires topic in handles
      modifies conn
      ensures conn.db == match handles[topic]
                         case Nil => old(conn.db)
                         case Func(run) => Dispatch(old(conn.db), run, topic, now, f)
    {
      var handle := handles[topic];
      if handle.Nil? {
        return;
      }
      var jobId := conn.LPop(ListKey(topic), f.popUp);
      if jobId.Ok? && jobId.value != "" {
        var got := conn.HGetString(HashKey(topic), jobId.value, f.getUp);
        var message := if got.Ok? then got.value else "";
        if !handle.run(message) {
          var _ := conn.ZAdd(topic, now + RetryDelay, jobId.value, f.writeUp);
        } else {
          var _ := conn.HDel(HashKey(topic), jobId.value, f.writeUp);
        }
      }
    }
  }
}

=== FILE: lifecycle.dfy ===
/**
 * A job's way through the queue across several operations: admission, a
 * promotion tick, a dispatch tick. Two details of the code as written break
 * that way, and each is shown twice here: once on the operations as written,
 * and once on a corrected operation that the lifecycle lemmas then use.
 *
 *  - The duplicate check asks HEXISTS on the sorted-set key `topic`, not on the
 *    payload hash `topic + "hash"`, so a job admitted twice is accepted twice.
 *    AdmitChecked asks the payload hash.
 *  - Promotion pushes the position of each due entry in the reply, not its id,
 *    so dispatch looks up a payload under the wrong field and the job is left
 *    with a payload but neither scheduled nor ready. PromoteIds pushes the ids.
 */
module Lifecycle {
  import opened Redis
  import opened DelayQueue
  import opened QueueProperties
  import Client

  /** Every store call of an operation gets through. */
  const AdmitAllUp: AdmitFaults := AdmitFaults(true, true, true, true)
  const PromoteAllUp: PromoteFaults := PromoteFaults(true, true, k => true)
  const DispatchAllUp: DispatchFaults := DispatchFaults(true, true, true)

  /** None of the topic's three keys exists. */
  predicate Unused(db: Db, topic: string) {
    topic !in db && HashKey(topic) !in db && ListKey(topic) !in db
  }

  // ------------------------------------------------------ duplicate check

  /** As written: admitting the same (topic, id) again succeeds and moves its due time. */
  lemma DuplicateAdmitted(db: Db, handles: map<string, Callback>, job: JobItem, again: JobItem, now: int, later: int)
    requires Registered(handles, job.topic) && again.topic == job.topic && again.id == job.id
    requires FitsZSet(db, job.topic) && FitsHash(db, HashKey(job.topic))
    ensures var first := Admit(db, handles, Some(job), now, AdmitAllUp);
            var second := Admit(first.db, handles, Some(again), later, AdmitAllUp);
            && first.err.None? && second.err.None?
            && ScoreOf(second.db, job.topic, job.id) == Some(later + again.seconds)
            && FieldOf(second.db, HashKey(job.topic), job.id) == Some(again.message)
  {
    var first := Admit(db, handles, Some(job), now, AdmitAllUp);
    AdmitExistedOnlyOnTopicKey(db, handles, job, now, AdmitAllUp);
    AdmitSuccessWritesBothEntries(db, handles, job, now, AdmitAllUp);
    assert FitsZSet(first.db, job.topic);
    assert FitsHash(first.db, HashKey(job.topic));
    AdmitExistedOnlyOnTopicKey(first.db, handles, again, later, AdmitAllUp);
    AdmitSuccessWritesBothEntries(first.db, handles, again, later, AdmitAllUp);
  }

  /** Corrected admission: the duplicate check asks the payload hash `topic + "hash"`. */
  function AdmitChecked(db: Db, handles: map<string, Callback>, job: Option<JobItem>, now: int, f: AdmitFaults): (r: Admission)
    ensures job.Some? && Registered(handles, job.value.topic) ==>
              (r.err == Some(Existed(job.value.id)) <==>
                 f.existsUp && FieldOf(db, HashKey(job.value.topic), job.value.id).Some?)
    ensures r.err.Some? && !r.err.value.StoreFailed? ==> r.db == db
    ensures r.err.None? ==> r.db == Admit(db, handles, job, now, f).db
    ensures Tidy(db) ==> Tidy(r.db)
  {
    if job.None? then Admission(db, Some(JobIsNil))
    else if !Registered(handles, job.value.topic) then Admission(db, Some(NotRegistered(job.value.topic)))
    else
      var present := HExists(db, HashKey(job.value.topic), job.value.id, f.existsUp);
      if present.Ok? && present.value then Admission(db, Some(Existed(job.value.id)))
      else
        var r := Schedule(db, job.value, now, f);
        assert r.err.None? ==> HExists(db, job.value.topic, job.value.id, f.existsUp) != Ok(true);
        r
  }

  /** Corrected: once a job is admitted, admitting the same (topic, id) again is refused and writes nothing. */
  lemma DuplicateRejected(db: Db, handles: map<string, Callback>, job: JobItem, again: JobItem, now: int, later: int, f: AdmitFaults)
    requires Registered(handles, job.topic) && again.topic == job.topic && again.id == job.id
    requires AdmitChecked(db, handles, Some(job), now, AdmitAllUp).err.None?
    requires f.existsUp
    ensures var first := AdmitChecked(db, handles, Some(job), now, AdmitAllUp);
            AdmitChecked(first.db, handles, Some(again), later, f) == Admission(first.db, Some(Existed(job.id)))
  {
    AdmitSuccessWritesBothEntries(db, handles, job, now, AdmitAllUp);
  }

  // ------------------------------------------------------------- promotion

  /** The reverse of a sequence. */
  function Reversed(s: seq<string>): (r: seq<string>)
    ensures |r| == |s|
    ensures forall k :: 0 <= k < |s| ==> r[k] == s[|s| - 1 - k]
  {
    if s == [] then [] else Reversed(s[1..]) + [s[0]]
  }

  /** Some listing of a set, one member at a time. */
  ghost function Enumerate(s: set<string>): (vs: seq<string>)
    ensures Client.Enumerates(vs, s)
    decreases s
  {
    if s == {} then []
    else
      var x :| x in s;
      var rest := Enumerate(s - {x});
      assert |s - {x}| == |s| - 1;
      [x] + rest
  }

  /** Pushes ids[from], ids[from + 1], ... onto the head of the list at `key`. */
  function PushIds(db: Db, key: string, ids: seq<string>, from: nat, up: nat -> bool): (r: Db)
    ensures r - {key} == db - {key}
    ensures Tidy(db) ==> Tidy(r)
    decreases |ids| - from
  {
    if from >= |ids| then db
    else PushIds(LPush(db, key, ids[from], up(from)).db, key, ids, from + 1, up)
  }

  /** Corrected promotion tick: the ids read, not their positions, go onto the list. */
  ghost function PromoteIds(db: Db, topic: string, now: int, f: PromoteFaults): (r: Db)
    ensures r - {topic, ListKey(topic)} == db - {topic, ListKey(topic)}
    ensures Tidy(db) ==> Tidy(r)
  {
    var vals := ZRangeByScore(db, topic, 0, now, f.rangeUp);
    var ids := if vals.Ok? then Enumerate(vals.value) else [];
    if ids == [] then db
    else
      var removed := ZRemRangeByScore(db, topic, 0, now, f.removeUp).db;
      var pushed := PushIds(removed, ListKey(topic), ids, 0, f.pushUp);
      AgreeOutside(removed, db, {topic}, {topic, ListKey(topic)});
      AgreeOutside(pushed, removed, {ListKey(topic)}, {topic, ListKey(topic)});
      pushed
  }

  /** The reverse of a sequence holds the same elements. */
  lemma ReversedMembers(s: seq<string>)
    ensures forall m :: m in Reversed(s) <==> m in s
  {
    forall m | m in s
      ensures m in Reversed(s)
    {
      var i :| 0 <= i < |s| && s[i] == m;
      assert Reversed(s)[|s| - 1 - i] == m;
    }
  }

  lemma {:induction false} PushIdsPrepends(db: Db, key: string, ids: seq<string>, from: nat, up: nat -> bool)
    requires from <= |ids| && FitsList(db, key)
    requires forall k :: from <= k < |ids| ==> up(k)
    ensures FitsList(PushIds(db, key, ids, from, up), key)
    ensures Items(PushIds(db, key, ids, from, up), key) == Reversed(ids[from..]) + Items(db, key)
    decreases |ids| - from
  {
    if from < |ids| {
      var next := LPush(db, key, ids[from], up(from)).db;
      assert FitsList(next, key) && Items(next, key) == [ids[from]] + Items(db, key);
      PushIdsPrepends(next, key, ids, from + 1, up);
      var tail := ids[from..];
      assert tail != [] && tail[1..] == ids[from + 1..] && tail[0] == ids[from];
      calc {
        Items(PushIds(db, key, ids, from, up), key);
        Items(PushIds(next, key, ids, from + 1, up), key);
        Reversed(ids[from + 1..]) + ([ids[from]] + Items(db, key));
        (Reversed(ids[from + 1..]) + [ids[from]]) + Items(db, key);
        Reversed(tail) + Items(db, key);
      }
    }
  }

  /** Corrected tick, sorted set: exactly the entries due in [0, now] are removed. */
  lemma PromoteIdsRemovesDue(db: Db, topic: string, now: int, f: PromoteFaults)
    requires f.rangeUp && f.removeUp && FitsZSet(db, topic)
    ensures var r := PromoteIds(db, topic, now, f);
            && FitsZSet(r, topic)
            && forall m :: ScoreOf(r, topic, m) == if m in Within(Scores(db, topic), 0, now) then None else ScoreOf(db, topic, m)
  {
    var due := Within(Scores(db, topic), 0, now);
    var ids := Enumerate(due);
    if due != {} {
      assert ids != [];
      var removed := ZRemRangeByScore(db, topic, 0, now, f.removeUp).db;
      assert PromoteIds(db, topic, now, f) == PushIds(removed, ListKey(topic), ids, 0, f.pushUp);
      AgreeAt(PromoteIds(db, topic, now, f), removed, {ListKey(topic)}, topic);
    }
  }

  /** Corrected tick, ready list: the due ids, in reverse of the order read, go to its head. */
  lemma PromoteIdsPushesDue(db: Db, topic: string, now: int, f: PromoteFaults)
    requires f.rangeUp && f.removeUp && forall k :: f.pushUp(k)
    requires FitsZSet(db, topic) && FitsList(db, ListKey(topic))
    ensures var r := PromoteIds(db, topic, now, f);
            && FitsList(r, ListKey(topic))
            && Items(r, ListKey(topic)) == Reversed(Enumerate(Within(Scores(db, topic), 0, now))) + Items(db, ListKey(topic))
  {
    var ids := Enumerate(Within(Scores(db, topic), 0, now));
    if ids != [] {
      var removed := ZRemRangeByScore(db, topic, 0, now, f.removeUp).db;
      AgreeAt(removed, db, {topic}, ListKey(topic));
      PushIdsPrepends(removed, ListKey(topic), ids, 0, f.pushUp);
      assert ids[0..] == ids;
      assert PromoteIds(db, topic, now, f) == PushIds(removed, ListKey(topic), ids, 0, f.pushUp);
    }
  }

  /**
   * Corrected: with every call getting through, a tick removes exactly the
   * entries due in [0, now] and puts exactly their ids, each once, at the head
   * of the list.
   */
  lemma PromoteIdsMovesDueIds(db: Db, topic: string, now: int, f: PromoteFaults)
    requires f.rangeUp && f.removeUp && forall k :: f.pushUp(k)
    requires FitsZSet(db, topic) && FitsList(db, ListKey(topic))
    ensures var r := PromoteIds(db, topic, now, f);
            var due := Within(Scores(db, topic), 0, now);
            var ready := Items(r, ListKey(topic));
            && FitsZSet(r, topic) && FitsList(r, ListKey(topic))
            && (forall m :: ScoreOf(r, topic, m) == if m in due then None else ScoreOf(db, topic, m))
            && |ready| == |due| + |Items(db, ListKey(topic))|
            && ready[|due|..] == Items(db, ListKey(topic))
            && (forall m :: m in ready[..|due|] <==> m in due)
  {
    var due := Within(Scores(db, topic), 0, now);
    var ids := Enumerate(due);
    PromoteIdsRemovesDue(db, topic, now, f);
    PromoteIdsPushesDue(db, topic, now, f);
    ReversedMembers(ids);
    var ready := Items(PromoteIds(db, topic, now, f), ListKey(topic));
    assert ready[..|due|] == Reversed(ids);
  }

  // ------------------------------------------------------------- lifecycle

  /**
   * As written: a job admitted to an unused topic and due by the promotion
   * tick is, after that tick and one dispatch tick, neither scheduled nor
   * ready, while its payload stays: the dispatch tick popped "0" and looked
   * up field "0" instead. Promotion only ever pushes decimal positions, so an
   * id that is not one (such as "a") cannot be popped later either; an id
   * such as "1" is popped only when a later promotion moves enough entries
   * at once.
   */
  lemma IndexPromotionStrandsJob(db: Db, handles: map<string, Callback>, run: string -> bool, job: JobItem,
                                 now: int, tick: int, later: int)
    requires Unused(db, job.topic) && Registered(handles, job.topic)
    requires 0 <= now + job.seconds <= tick
    requires job.id != Decimal(0)
    ensures var admitted := Admit(db, handles, Some(job), now, AdmitAllUp).db;
            var promoted := Promote(admitted, job.topic, tick, PromoteAllUp);
            var done := Dispatch(promoted, run, job.topic, later, DispatchAllUp);
            && FieldOf(done, HashKey(job.topic), job.id) == Some(job.message)
            && ScoreOf(done, job.topic, job.id).None?
            && job.id !in Items(done, ListKey(job.topic))
  {
    var t, h, l := job.topic, HashKey(job.topic), ListKey(job.topic);
    var admitted := Admit(db, handles, Some(job), now, AdmitAllUp).db;
    AdmitExistedOnlyOnTopicKey(db, handles, job, now, AdmitAllUp);
    AdmitSuccessWritesBothEntries(db, handles, job, now, AdmitAllUp);
    AgreeAt(admitted, db, {t, h}, l);
    assert Within(Scores(admitted, t), 0, tick) == {job.id};
    var promoted := Promote(admitted, t, tick, PromoteAllUp);
    PromoteMovesDueEntries(admitted, t, tick, PromoteAllUp);
    PromoteKeepsEntriesNotDue(admitted, t, tick, PromoteAllUp);
    assert Items(promoted, l) == [Decimal(0)];
    DispatchPopsOne(promoted, run, t, later, DispatchAllUp);
    var id := PoppedId(promoted, t, true);
    assert id == Decimal(0);
    var popped := LPop(promoted, l, true).db;
    AgreeAt(popped, promoted, {l}, h);
    AgreeAt(popped, promoted, {l}, t);
    var done := Dispatch(promoted, run, t, later, DispatchAllUp);
    if run(Payload(popped, t, id, true)) {
      DispatchSuccessDeletesPayload(promoted, run, t, later, DispatchAllUp);
    } else {
      DispatchFailureReschedules(promoted, run, t, later, DispatchAllUp);
    }
  }

  /** A dispatch tick whose handler rejects the only ready job puts it back in the emptied sorted set. */
  lemma LastJobFails(db: Db, run: string -> bool, topic: string, id: string, message: string, now: int)
    requires topic !in db && id != "" && !run(message)
    requires FitsHash(db, HashKey(topic)) && Fields(db, HashKey(topic)) == map[id := message]
    requires FitsList(db, ListKey(topic)) && Items(db, ListKey(topic)) == [id]
    ensures var done := Dispatch(db, run, topic, now, DispatchAllUp);
            && Scores(done, topic) == map[id := now + RetryDelay]
            && Fields(done, HashKey(topic)) == map[id := message]
            && Items(done, ListKey(topic)) == []
  {
    var h, l := HashKey(topic), ListKey(topic);
    DispatchPopsOne(db, run, topic, now, DispatchAllUp);
    var popped := LPop(db, l, true).db;
    AgreeAt(popped, db, {l}, h);
    assert Payload(popped, topic, id, true) == message;
    DispatchFailureReschedules(db, run, topic, now, DispatchAllUp);
    var done := Dispatch(db, run, topic, now, DispatchAllUp);
    assert Scores(done, topic).Keys == {id};
  }

  /** Removing the two keys a job still holds restores a keyspace that differed only at its three keys. */
  lemma Restored(promoted: Db, db: Db, t: string, h: string, l: string)
    requires promoted - {t, h, l} == db - {t, h, l}
    requires t !in promoted && t !in db && h !in db && l !in db
    ensures promoted - {h, l} == db
  {
    var done := promoted - {h, l};
    assert done - {t, h, l} == promoted - {t, h, l};
    AgreeEverywhere(done, db, {t, h, l});
  }

  /** A dispatch tick that completes the only ready job also removes the last payload. */
  lemma LastJobCompletes(db: Db, run: string -> bool, topic: string, id: string, message: string, now: int)
    requires Tidy(db) && id != "" && run(message)
    requires FitsHash(db, HashKey(topic)) && Fields(db, HashKey(topic)) == map[id := message]
    requires FitsList(db, ListKey(topic)) && Items(db, ListKey(topic)) == [id]
    ensures Dispatch(db, run, topic, now, DispatchAllUp) == db - {HashKey(topic), ListKey(topic)}
  {
    var h, l := HashKey(topic), ListKey(topic);
    var popped := LPop(db, l, true).db;
    assert popped == db - {l};
    AgreeAt(popped, db, {l}, h);
    assert PoppedId(db, topic, true) == id;
    assert Payload(popped, topic, id, true) == message;
    var done := HDel(popped, h, id, true).db;
    assert Fields(popped, h) - {id} == map[];
    assert done == popped - {h};
    assert done == db - {h, l};
  }

  /**
   * Corrected: a job admitted to an unused topic, due by the promotion tick,
   * whose handler accepts its message, leaves the keyspace exactly as it was
   * before admission after one promotion and one dispatch tick.
   */
  lemma CompletedJobLeavesNoTrace(db: Db, handles: map<string, Callback>, run: string -> bool, job: JobItem,
                                  now: int, tick: int, later: int)
    requires Tidy(db) && Unused(db, job.topic) && Registered(handles, job.topic)
    requires 0 <= now + job.seconds <= tick
    requires job.id != "" && run(job.message)
    ensures var admitted := AdmitChecked(db, handles, Some(job), now, AdmitAllUp).db;
            var promoted := PromoteIds(admitted, job.topic, tick, PromoteAllUp);
            Dispatch(promoted, run, job.topic, later, DispatchAllUp) == db
  {
    var t, h, l := job.topic, HashKey(job.topic), ListKey(job.topic);
    var promoted := DueJobPromoted(db, handles, job, now, tick);
    LastJobCompletes(promoted, run, t, job.id, job.message, later);
    Restored(promoted, db, t, h, l);
  }

  /**
   * Corrected: if the handler rejects the message instead, the same steps
   * leave the job scheduled RetryDelay seconds after the dispatch tick, with
   * its payload kept and the list empty.
   */
  lemma FailedJobRescheduled(db: Db, handles: map<string, Callback>, run: string -> bool, job: JobItem,
                             now: int, tick: int, later: int)
    requires Tidy(db) && Unused(db, job.topic) && Registered(handles, job.topic)
    requires 0 <= now + job.seconds <= tick
    requires job.id != "" && !run(job.message)
    ensures var admitted := AdmitChecked(db, handles, Some(job), now, AdmitAllUp).db;
            var promoted := PromoteIds(admitted, job.topic, tick, PromoteAllUp);
            var done := Dispatch(promoted, run, job.topic, later, DispatchAllUp);
            && Scores(done, job.topic) == map[job.id := later + RetryDelay]
            && Fields(done, HashKey(job.topic)) == map[job.id := job.message]
            && Items(done, ListKey(job.topic)) == []
  {
    var t, h, l := job.topic, HashKey(job.topic), ListKey(job.topic);
    var promoted := DueJobPromoted(db, handles, job, now, tick);
    LastJobFails(promoted, run, t, job.id, job.message, later);
  }

  /** After admission to an unused topic, the job is the only entry of its set and its hash. */
  lemma JobAdmitted(db: Db, handles: map<string, Callback>, job: JobItem, now: int) returns (admitted: Db)
    requires Tidy(db) && Unused(db, job.topic) && Registered(handles, job.topic)
    ensures admitted == AdmitChecked(db, handles, Some(job), now, AdmitAllUp).db
    ensures Tidy(admitted) && FitsZSet(admitted, job.topic) && FitsList(admitted, ListKey(job.topic))
    ensures Scores(admitted, job.topic) == map[job.id := now + job.seconds]
    ensures Fields(admitted, HashKey(job.topic)) == map[job.id := job.message] && FitsHash(admitted, HashKey(job.topic))
    ensures Items(admitted, ListKey(job.topic)) == []
    ensures admitted - {job.topic, HashKey(job.topic)} == db - {job.topic, HashKey(job.topic)}
  {
    var t, h, l := job.topic, HashKey(job.topic), ListKey(job.topic);
    var first := AdmitChecked(db, handles, Some(job), now, AdmitAllUp);
    assert first.err.None?;
    admitted := first.db;
    AdmitSuccessWritesBothEntries(db, handles, job, now, AdmitAllUp);
    AgreeAt(admitted, db, {t, h}, l);
    assert Scores(admitted, t).Keys == {job.id};
    assert Fields(admitted, h).Keys == {job.id};
  }

  /**
   * The state both corrected lifecycle lemmas start from: after admission and
   * the promotion tick, the sorted set is gone, the payload is in the hash and
   * the id is the only ready entry.
   */
  lemma DueJobPromoted(db: Db, handles: map<string, Callback>, job: JobItem, now: int, tick: int)
    returns (promoted: Db)
    requires Tidy(db) && Unused(db, job.topic) && Registered(handles, job.topic)
    requires 0 <= now + job.seconds <= tick
    ensures promoted == PromoteIds(AdmitChecked(db, handles, Some(job), now, AdmitAllUp).db, job.topic, tick, PromoteAllUp)
    ensures Tidy(promoted) && job.topic !in promoted
    ensures Fields(promoted, HashKey(job.topic)) == map[job.id := job.message] && FitsHash(promoted, HashKey(job.topic))
    ensures Items(promoted, ListKey(job.topic)) == [job.id] && FitsList(promoted, ListKey(job.topic))
    ensures promoted - {job.topic, HashKey(job.topic), ListKey(job.topic)} == db - {job.topic, HashKey(job.topic), ListKey(job.topic)}
  {
    var t, h, l := job.topic, HashKey(job.topic), ListKey(job.topic);
    var admitted := JobAdmitted(db, handles, job, now);
    var due := Within(Scores(admitted, t), 0, tick);
    assert due == {job.id};
    var ids := Enumerate(due);
    assert |ids| == 1 && ids[0] == job.id;
    assert Reversed(ids) == [job.id];
    promoted := PromoteIds(admitted, t, tick, PromoteAllUp);
    PromoteIdsRemovesDue(admitted, t, tick, PromoteAllUp);
    PromoteIdsPushesDue(admitted, t, tick, PromoteAllUp);
    AgreeAt(promoted, admitted, {t, l}, h);
    forall m
      ensures m !in Scores(promoted, t)
    {
      assert ScoreOf(promoted, t, m).None?;
    }
    TidyVacant(promoted, t);
    AgreeOutside(admitted, db, {t, h}, {t, h, l});
    AgreeOutside(promoted, admitted, {t, l}, {t, h, l});
  }
}

=== FILE: properties.dfy ===
/**
 * What one call of each queue operation does to the keyspace: which keys and
 * entries it changes, which it leaves alone, and what each failure leaves behind.
 */
module QueueProperties {
  import opened Redis
  import opened DelayQueue

  // ---------------------------------------------------------------- AddJob

  /** A nil job or a topic without a handler is refused before any store call. */
  lemma AdmitRefusesWithoutWriting(db: Db, handles: map<string, Callback>, job: Option<JobItem>, now: int, f: AdmitFaults)
    requires job.None? || !Registered(handles, job.value.topic)
    ensures Admit(db, handles, job, now, f).db == db
    ensures Admit(db, handles, job, now, f).err ==
              Some(if job.None? then JobIsNil else NotRegistered(job.value.topic))
  {
  }

  /**
   * The duplicate check reports "existed" exactly when HEXISTS on the bare
   * topic key answers true; a failed query counts as "not existing". While the
   * topic key holds the sorted set (or nothing), no job is ever reported as a
   * duplicate, whatever the payload hash holds.
   */
  lemma AdmitExistedOnlyOnTopicKey(db: Db, handles: map<string, Callback>, job: JobItem, now: int, f: AdmitFaults)
    requires Registered(handles, job.topic)
    ensures var r := Admit(db, handles, Some(job), now, f);
            r.err == Some(Existed(job.id)) <==> f.existsUp && FitsHash(db, job.topic) && FieldOf(db, job.topic, job.id).Some?
    ensures FitsZSet(db, job.topic) ==> Admit(db, handles, Some(job), now, f).err != Some(Existed(job.id))
  {
    var present := HExists(db, job.topic, job.id, f.existsUp);
    if !(present.Ok? && present.value) {
      assert Admit(db, handles, Some(job), now, f) == Schedule(db, job, now, f);
    }
  }

  /**
   * A successful admission schedules the id at now + seconds in sorted set
   * `topic` and stores the message under the id in hash `topic + "hash"`;
   * every other member, field and key is as before.
   */
  lemma AdmitSuccessWritesBothEntries(db: Db, handles: map<string, Callback>, job: JobItem, now: int, f: AdmitFaults)
    requires Admit(db, handles, Some(job), now, f).err.None?
    ensures var r := Admit(db, handles, Some(job), now, f).db;
            && ScoreOf(r, job.topic, job.id) == Some(now + job.seconds)
            && FieldOf(r, HashKey(job.topic), job.id) == Some(job.message)
            && (forall m :: m != job.id ==> ScoreOf(r, job.topic, m) == ScoreOf(db, job.topic, m))
            && (forall k :: k != job.id ==> FieldOf(r, HashKey(job.topic), k) == FieldOf(db, HashKey(job.topic), k))
            && r - {job.topic, HashKey(job.topic)} == db - {job.topic, HashKey(job.topic)}
  {
    var added := ZAdd(db, job.topic, job.id, now + job.seconds, f.addUp);
    var stored := HSet(added.db, HashKey(job.topic), job.id, job.message, f.setUp);
    assert Admit(db, handles, Some(job), now, f).db == stored.db;
    AgreeOutside(added.db, db, {job.topic}, {job.topic, HashKey(job.topic)});
    AgreeOutside(stored.db, added.db, {HashKey(job.topic)}, {job.topic, HashKey(job.topic)});
  }

  /** When the sorted-set insert fails, its error is returned and nothing was written. */
  lemma AdmitInsertFailureWritesNothing(db: Db, handles: map<string, Callback>, job: JobItem, now: int, f: AdmitFaults)
    requires Registered(handles, job.topic) && HExists(db, job.topic, job.id, f.existsUp) != Ok(true)
    requires !(f.addUp && FitsZSet(db, job.topic))
    ensures Admit(db, handles, Some(job), now, f) ==
              Admission(db, Some(StoreFailed(ZAdd(db, job.topic, job.id, now + job.seconds, f.addUp).reply.error)))
  {
  }

  /**
   * When the payload write fails after the insert succeeded, the payload
   * error is returned, the hash is as before, and the compensating ZREM takes
   * the id out of the sorted set again. If the id was not scheduled before,
   * the keyspace is exactly as before; if the ZREM fails too, the id stays
   * scheduled at now + seconds, with whatever payload the hash held before.
   * No key other than the sorted set changes on any of these paths.
   */
  lemma AdmitPayloadFailureRollsBack(db: Db, handles: map<string, Callback>, job: JobItem, now: int, f: AdmitFaults)
    requires Registered(handles, job.topic) && HExists(db, job.topic, job.id, f.existsUp) != Ok(true)
    requires f.addUp && FitsZSet(db, job.topic)
    requires !(f.setUp && FitsHash(db, HashKey(job.topic)))
    ensures var r := Admit(db, handles, Some(job), now, f);
            && r.err == Some(StoreFailed(if f.setUp then WrongType else Unreachable))
            && Fields(r.db, HashKey(job.topic)) == Fields(db, HashKey(job.topic))
            && (f.undoUp ==> ScoreOf(r.db, job.topic, job.id).None?)
            && (f.undoUp && ScoreOf(db, job.topic, job.id).None? && Tidy(db) ==> r.db == db)
            && (!f.undoUp ==> ScoreOf(r.db, job.topic, job.id) == Some(now + job.seconds))
            && (forall m :: m != job.id ==> ScoreOf(r.db, job.topic, m) == ScoreOf(db, job.topic, m))
            && r.db - {job.topic} == db - {job.topic}
  {
    var added := ZAdd(db, job.topic, job.id, now + job.seconds, f.addUp);
    var undone := ZRem(added.db, job.topic, job.id, f.undoUp);
    assert HSet(added.db, HashKey(job.topic), job.id, job.message, f.setUp).db == added.db;
    assert Admit(db, handles, Some(job), now, f).db == undone.db;
    AgreeAt(undone.db, db, {job.topic}, HashKey(job.topic));
    if f.undoUp && ScoreOf(db, job.topic, job.id).None? && Tidy(db) {
      assert Scores(undone.db, job.topic) == Scores(db, job.topic);
      SameSortedSet(undone.db, db, job.topic);
    }
  }

  /** Tidy keyspaces that agree outside `key` and hold the same sorted set there are equal. */
  lemma SameSortedSet(a: Db, b: Db, key: string)
    requires Tidy(a) && Tidy(b) && a - {key} == b - {key}
    requires FitsZSet(a, key) && FitsZSet(b, key) && Scores(a, key) == Scores(b, key)
    ensures a == b
  {
    forall k | k in a
      ensures k in b && a[k] == b[k]
    {
      if k != key {
        AgreeAt(a, b, {key}, k);
      }
    }
    forall k | k in b
      ensures k in a
    {
      if k != key {
        AgreeAt(a, b, {key}, k);
      }
    }
  }

  // ------------------------------------------------------------- promotion

  /** With every push getting through, the pushed texts of to - 1, ..., from head the list. */
  lemma {:induction false} PushIndicesPrepends(db: Db, key: string, from: nat, to: nat, up: nat -> bool)
    requires FitsList(db, key)
    requires forall k :: from <= k < to ==> up(k)
    ensures FitsList(PushIndices(db, key, from, to, up), key)
    ensures Items(PushIndices(db, key, from, to, up), key) == Countdown(from, to) + Items(db, key)
    decreases (to as int) - from
  {
    if from < to {
      var next := LPush(db, key, Decimal(from), up(from)).db;
      PushIndicesPrepends(next, key, from + 1, to, up);
      assert Countdown(from, to) + Items(db, key) == Countdown(from + 1, to) + ([Decimal(from)] + Items(db, key));
    }
  }

  /** A tick whose range read fails or finds nothing due changes nothing. */
  lemma PromoteIdleWhenNothingDue(db: Db, topic: string, now: int, f: PromoteFaults)
    requires !f.rangeUp || !FitsZSet(db, topic) || forall m :: !InRange(ScoreOf(db, topic, m), 0, now)
    ensures Promote(db, topic, now, f) == db
  {
    var vals := ZRangeByScore(db, topic, 0, now, f.rangeUp);
    if vals.Ok? {
      assert vals.value == {};
    }
  }

  /**
   * Whatever fails, a tick leaves every entry whose score is not in [0, now]
   * where it was: an entry not yet due is never promoted. The payload hash is
   * never touched.
   */
  lemma PromoteKeepsEntriesNotDue(db: Db, topic: string, now: int, f: PromoteFaults)
    ensures var r := Promote(db, topic, now, f);
            && (forall m :: !InRange(ScoreOf(db, topic, m), 0, now) ==> ScoreOf(r, topic, m) == ScoreOf(db, topic, m))
            && Fields(r, HashKey(topic)) == Fields(db, HashKey(topic))
  {
    var r := Promote(db, topic, now, f);
    AgreeAt(r, db, {topic, ListKey(topic)}, HashKey(topic));
    var vals := ZRangeByScore(db, topic, 0, now, f.rangeUp);
    if vals.Ok? && |vals.value| != 0 {
      var removed := ZRemRangeByScore(db, topic, 0, now, f.removeUp).db;
      AgreeAt(r, removed, {ListKey(topic)}, topic);
    }
  }

  /**
   * With every store call getting through, a tick removes exactly the entries
   * scored in [0, now] from sorted set `topic` and puts n list entries at the
   * head of `topic + "list"`, where n is how many were due; those entries are
   * the texts of the positions n - 1, ..., 0, not the job ids.
   */
  lemma PromoteMovesDueEntries(db: Db, topic: string, now: int, f: PromoteFaults)
    requires f.rangeUp && f.removeUp && forall k :: f.pushUp(k)
    requires FitsZSet(db, topic) && FitsList(db, ListKey(topic))
    ensures var r := Promote(db, topic, now, f);
            var n := |Within(Scores(db, topic), 0, now)|;
            && (forall m :: ScoreOf(r, topic, m) == if InRange(ScoreOf(db, topic, m), 0, now) then None else ScoreOf(db, topic, m))
            && Items(r, ListKey(topic)) == Countdown(0, n) + Items(db, ListKey(topic))
  {
    var n := |Within(Scores(db, topic), 0, now)|;
    if n == 0 {
      PromoteIdleWhenNothingDue(db, topic, now, f);
    } else {
      var removed := ZRemRangeByScore(db, topic, 0, now, f.removeUp).db;
      AgreeAt(removed, db, {topic}, ListKey(topic));
      PushIndicesPrepends(removed, ListKey(topic), 0, n, f.pushUp);
      AgreeAt(Promote(db, topic, now, f), removed, {ListKey(topic)}, topic);
    }
  }

  // -------------------------------------------------------------- dispatch

  /** A tick whose pop fails or finds the list empty changes nothing. */
  lemma DispatchIdleOnEmptyList(db: Db, run: string -> bool, topic: string, now: int, f: DispatchFaults)
    requires !f.popUp || !FitsList(db, ListKey(topic)) || Items(db, ListKey(topic)) == []
    ensures Dispatch(db, run, topic, now, f) == db
  {
  }

  /** A tick that pops an entry takes exactly that one entry off the head of the list. */
  lemma DispatchPopsOne(db: Db, run: string -> bool, topic: string, now: int, f: DispatchFaults)
    requires f.popUp && FitsList(db, ListKey(topic)) && Items(db, ListKey(topic)) != []
    ensures Items(Dispatch(db, run, topic, now, f), ListKey(topic)) == Items(db, ListKey(topic))[1..]
    ensures PoppedId(db, topic, f.popUp) == Items(db, ListKey(topic))[0]
  {
    var popped := LPop(db, ListKey(topic), f.popUp).db;
    var r := Dispatch(db, run, topic, now, f);
    assert r - {HashKey(topic), topic} == popped - {HashKey(topic), topic};
    assert ListKey(topic) in r - {HashKey(topic), topic} <==> ListKey(topic) in popped - {HashKey(topic), topic};
  }

  /**
   * On handler success the popped id's payload field is deleted (when the
   * HDEL gets through) and the hash is as before when it does not; the
   * sorted set is left alone, and nothing but the list and the payload hash
   * changes.
   */
  lemma DispatchSuccessDeletesPayload(db: Db, run: string -> bool, topic: string, now: int, f: DispatchFaults)
    requires PoppedId(db, topic, f.popUp) != ""
    requires run(Payload(LPop(db, ListKey(topic), f.popUp).db, topic, PoppedId(db, topic, f.popUp), f.getUp))
    ensures var r := Dispatch(db, run, topic, now, f);
            var id := PoppedId(db, topic, f.popUp);
            && (f.writeUp && FitsHash(db, HashKey(topic)) ==> FieldOf(r, HashKey(topic), id).None?)
            && (!(f.writeUp && FitsHash(db, HashKey(topic))) ==> Fields(r, HashKey(topic)) == Fields(db, HashKey(topic)))
            && (forall k :: k != id ==> FieldOf(r, HashKey(topic), k) == FieldOf(db, HashKey(topic), k))
            && Scores(r, topic) == Scores(db, topic)
            && r - {ListKey(topic), HashKey(topic)} == db - {ListKey(topic), HashKey(topic)}
  {
    var popped := LPop(db, ListKey(topic), f.popUp).db;
    var id := PoppedId(db, topic, f.popUp);
    var r := HDel(popped, HashKey(topic), id, f.writeUp).db;
    assert Dispatch(db, run, topic, now, f) == r;
    assert popped - {ListKey(topic)} == db - {ListKey(topic)};
    assert FitsHash(popped, HashKey(topic)) == FitsHash(db, HashKey(topic)) by {
      assert HashKey(topic) in popped <==> HashKey(topic) in db;
    }
    assert Fields(popped, HashKey(topic)) == Fields(db, HashKey(topic)) by {
      assert HashKey(topic) in popped <==> HashKey(topic) in db;
    }
    assert r - {HashKey(topic)} == popped - {HashKey(topic)};
    AgreeOutside(r, popped, {HashKey(topic)}, {ListKey(topic), HashKey(topic)});
    AgreeOutside(popped, db, {ListKey(topic)}, {ListKey(topic), HashKey(topic)});
    assert r - {ListKey(topic), HashKey(topic)} == db - {ListKey(topic), HashKey(topic)};
    assert topic in r <==> topic in db by {
      assert topic in r - {ListKey(topic), HashKey(topic)} <==> topic in db - {ListKey(topic), HashKey(topic)};
    }
  }

  /**
   * On handler failure the popped id is put back in sorted set `topic` due
   * at now + RetryDelay (when the ZADD gets through) and the payload hash is
   * left alone. If that ZADD fails, the sorted set is as before.
   */
  lemma DispatchFailureReschedules(db: Db, run: string -> bool, topic: string, now: int, f: DispatchFaults)
    requires PoppedId(db, topic, f.popUp) != ""
    requires !run(Payload(LPop(db, ListKey(topic), f.popUp).db, topic, PoppedId(db, topic, f.popUp), f.getUp))
    ensures var r := Dispatch(db, run, topic, now, f);
            var id := PoppedId(db, topic, f.popUp);
            && (f.writeUp && FitsZSet(db, topic) ==> ScoreOf(r, topic, id) == Some(now + RetryDelay))
            && (!(f.writeUp && FitsZSet(db, topic)) ==> Scores(r, topic) == Scores(db, topic))
            && (forall m :: m != id ==> ScoreOf(r, topic, m) == ScoreOf(db, topic, m))
            && Fields(r, HashKey(topic)) == Fields(db, HashKey(topic))
            && r - {ListKey(topic), topic} == db - {ListKey(topic), topic}
  {
    var popped := LPop(db, ListKey(topic), f.popUp).db;
    var id := PoppedId(db, topic, f.popUp);
    var r := ZAdd(popped, topic, id, now + RetryDelay, f.writeUp).db;
    assert Dispatch(db, run, topic, now, f) == r;
    assert popped - {ListKey(topic)} == db - {ListKey(topic)};
    assert FitsZSet(popped, topic) == FitsZSet(db, topic) && Scores(popped, topic) == Scores(db, topic) by {
      assert topic in popped <==> topic in db;
    }
    assert r - {topic} == popped - {topic};
    AgreeOutside(r, popped, {topic}, {ListKey(topic), topic});
    AgreeOutside(popped, db, {ListKey(topic)}, {ListKey(topic), topic});
    assert r - {ListKey(topic), topic} == db - {ListKey(topic), topic};
    assert HashKey(topic) in r <==> HashKey(topic) in db by {
      assert HashKey(topic) in r - {ListKey(topic), topic} <==> HashKey(topic) in db - {ListKey(topic), topic};
    }
  }
}

=== FILE: redis.dfy ===
/**
 * The backing store of the delay queue: one Redis keyspace in which every key
 * holds exactly one kind of collection (a sorted set of member -> score, a hash
 * of field -> value, or a list). Each command is a pure transition on the
 * keyspace that takes `up`, whether the network round trip succeeds; a call that
 * does not get through changes nothing. As in Redis, a write that leaves a
 * collection empty removes its key, and a command on a key of the wrong kind
 * fails with WRONGTYPE.
 */
module Redis {

  datatype Option<T> = None | Some(value: T)

  /** The value stored under one key. */
  datatype Value =
    | ZSet(scores: map<string, int>)
    | Hash(fields: map<string, string>)
    | List(items: seq<string>)

  type Db = map<string, Value>

  /** Unreachable: the call did not get through; NotFound: Redis answered nil. */
  datatype StoreError = Unreachable | WrongType | NotFound

  datatype Reply<T> = Ok(value: T) | Err(error: StoreError)

  /** The keyspace after a command, and the command's reply. */
  datatype Step<T> = Step(db: Db, reply: Reply<T>)

  predicate Empty(v: Value) {
    match v
    case ZSet(s) => s == map[]
    case Hash(h) => h == map[]
    case List(xs) => xs == []
  }

  /** Redis never keeps an empty collection under a key. */
  predicate Tidy(db: Db) {
    forall k :: k in db ==> !Empty(db[k])
  }

  /** Writes a collection back under `key`; an empty collection deletes the key. */
  function Put(db: Db, key: string, v: Value): (r: Db)
    ensures r - {key} == db - {key}
    ensures key in r <==> !Empty(v)
    ensures key in r ==> r[key] == v
    ensures Tidy(db) ==> Tidy(r)
  {
    if Empty(v) then db - {key} else db[key := v]
  }

  /** Keyspaces that agree outside `keys` agree outside any larger set of keys. */
  lemma AgreeOutside(a: Db, b: Db, keys: set<string>, more: set<string>)
    requires a - keys == b - keys && keys <= more
    ensures a - more == b - more
  {
    assert a - more == (a - keys) - more;
    assert b - more == (b - keys) - more;
  }

  /** A key outside the changed ones holds the same value on both sides. */
  lemma AgreeAt(a: Db, b: Db, keys: set<string>, k: string)
    requires a - keys == b - keys && k !in keys
    ensures (k in a <==> k in b) && (k in a ==> a[k] == b[k])
    ensures Scores(a, k) == Scores(b, k) && Fields(a, k) == Fields(b, k) && Items(a, k) == Items(b, k)
    ensures FitsZSet(a, k) == FitsZSet(b, k) && FitsHash(a, k) == FitsHash(b, k) && FitsList(a, k) == FitsList(b, k)
  {
    assert k in a <==> k in a - keys;
    assert k in b <==> k in b - keys;
    if k in a {
      assert a[k] == (a - keys)[k];
    }
  }

  /** In a tidy keyspace, a key that reads as an empty collection of a fitting kind is absent. */
  lemma TidyVacant(db: Db, key: string)
    requires Tidy(db)
    ensures FitsZSet(db, key) && Scores(db, key) == map[] ==> key !in db
    ensures FitsHash(db, key) && Fields(db, key) == map[] ==> key !in db
    ensures FitsList(db, key) && Items(db, key) == [] ==> key !in db
  {
  }

  /** Keyspaces that agree outside `keys` and hold none of them are equal. */
  lemma AgreeEverywhere(a: Db, b: Db, keys: set<string>)
    requires a - keys == b - keys
    requires forall k :: k in keys ==> k !in a && k !in b
    ensures a == b
  {
    assert a == a - keys;
    assert b == b - keys;
  }

  // Whether a command of each kind may work on `key` (absent keys read as empty).

  predicate FitsZSet(db: Db, key: string) { key !in db || db[key].ZSet? }
  predicate FitsHash(db: Db, key: string) { key !in db || db[key].Hash? }
  predicate FitsList(db: Db, key: string) { key !in db || db[key].List? }

  // Views of one key as a collection of the kind the caller expects.

  function Scores(db: Db, key: string): map<string, int> {
    if key in db && db[key].ZSet? then db[key].scores else map[]
  }

  function Fields(db: Db, key: string): map<string, string> {
    if key in db && db[key].Hash? then db[key].fields else map[]
  }

  function Items(db: Db, key: string): seq<string> {
    if key in db && db[key].List? then db[key].items else []
  }

  function ScoreOf(db: Db, key: string, member: string): Option<int> {
    var s := Scores(db, key);
    if member in s then Some(s[member]) else None
  }

  function FieldOf(db: Db, key: string, field: string): Option<string> {
    var h := Fields(db, key);
    if field in h then Some(h[field]) else None
  }

  /** The members of `s` whose score lies in the closed interval [lo, hi]. */
  function Within(s: map<string, int>, lo: int, hi: int): (r: set<string>)
    ensures forall m :: m in r <==> m in s && lo <= s[m] <= hi
  {
    set m | m in s && lo <= s[m] <= hi
  }

  /** Whether a member is present with a score in [lo, hi]. */
  predicate InRange(score: Option<int>, lo: int, hi: int) {
    score.Some? && lo <= score.value <= hi
  }

  /** The failure a command reports before it looks at the data. */
  function Refusal(up: bool, fits: bool): (e: Option<StoreError>)
    ensures e.None? <==> up && fits
  {
    if !up then Some(Unreachable) else if !fits then Some(WrongType) else None
  }

  /** ZADD key score member: sets one member's score, adding it if absent. */
  function ZAdd(db: Db, key: string, member: string, score: int, up: bool): (r: Step<()>)
    ensures r.reply.Ok? <==> up && FitsZSet(db, key)
    ensures r.reply.Err? ==> r.db == db
    ensures r.reply.Ok? ==> ScoreOf(r.db, key, member) == Some(score)
    ensures r.reply.Ok? ==> forall m :: m != member ==> ScoreOf(r.db, key, m) == ScoreOf(db, key, m)
    ensures r.reply.Ok? ==> r.db - {key} == db - {key}
    ensures Tidy(db) ==> Tidy(r.db)
  {
    match Refusal(up, FitsZSet(db, key))
    case Some(e) => Step(db, Err(e))
    case None => Step(db[key := ZSet(Scores(db, key)[member := score])], Ok(()))
  }

  /** ZREM key member: removes one member, if present. */
  function ZRem(db: Db, key: string, member: string, up: bool): (r: Step<()>)
    ensures r.reply.Ok? <==> up && FitsZSet(db, key)
    ensures r.reply.Err? ==> r.db == db
    ensures r.reply.Ok? ==> ScoreOf(r.db, key, member).None?
    ensures r.reply.Ok? ==> forall m :: m != member ==> ScoreOf(r.db, key, m) == ScoreOf(db, key, m)
    ensures r.reply.Ok? ==> r.db - {key} == db - {key}
    ensures Tidy(db) ==> Tidy(r.db)
  {
    match Refusal(up, FitsZSet(db, key))
    case Some(e) => Step(db, Err(e))
    case None => Step(Put(db, key, ZSet(Scores(db, key) - {member})), Ok(()))
  }

  /** ZRANGEBYSCORE key lo hi: the members whose score is in [lo, hi] (order left abstract). */
  function ZRangeByScore(db: Db, key: string, lo: int, hi: int, up: bool): (r: Reply<set<string>>)
    ensures r.Ok? <==> up && FitsZSet(db, key)
    ensures r.Ok? ==> forall m :: m in r.value <==> InRange(ScoreOf(db, key, m), lo, hi)
  {
    match Refusal(up, FitsZSet(db, key))
    case Some(e) => Err(e)
    case None => Ok(Within(Scores(db, key), lo, hi))
  }

  /** ZREMRANGEBYSCORE key lo hi: removes every member whose score is in [lo, hi]. */
  function ZRemRangeByScore(db: Db, key: string, lo: int, hi: int, up: bool): (r: Step<()>)
    ensures r.reply.Ok? <==> up && FitsZSet(db, key)
    ensures r.reply.Err? ==> r.db == db
    ensures r.reply.Ok? ==> forall m ::
              ScoreOf(r.db, key, m) == (if InRange(ScoreOf(db, key, m), lo, hi) then None else ScoreOf(db, key, m))
    ensures r.reply.Ok? ==> r.db - {key} == db - {key}
    ensures Tidy(db) ==> Tidy(r.db)
  {
    match Refusal(up, FitsZSet(db, key))
    case Some(e) => Step(db, Err(e))
    case None =>
      var s := Scores(db, key);
      Step(Put(db, key, ZSet(s - Within(s, lo, hi))), Ok(()))
  }

  /** HEXISTS key field. */
  function HExists(db: Db, key: string, field: string, up: bool): (r: Reply<bool>)
    ensures r.Ok? <==> up && FitsHash(db, key)
    ensures r.Ok? ==> (r.value <==> FieldOf(db, key, field).Some?)
  {
    match Refusal(up, FitsHash(db, key))
    case Some(e) => Err(e)
    case None => Ok(field in Fields(db, key))
  }

  /** HSET key field value. */
  function HSet(db: Db, key: string, field: string, value: string, up: bool): (r: Step<()>)
    ensures r.reply.Ok? <==> up && FitsHash(db, key)
    ensures r.reply.Err? ==> r.db == db
    ensures r.reply.Ok? ==> FieldOf(r.db, key, field) == Some(value)
    ensures r.reply.Ok? ==> forall f :: f != field ==> FieldOf(r.db, key, f) == FieldOf(db, key, f)
    ensures r.reply.Ok? ==> r.db - {key} == db - {key}
    ensures Tidy(db) ==> Tidy(r.db)
  {
    match Refusal(up, FitsHash(db, key))
    case Some(e) => Step(db, Err(e))
    case None => Step(db[key := Hash(Fields(db, key)[field := value])], Ok(()))
  }

  /** HGET key field: a missing key or field answers nil. */
  function HGet(db: Db, key: string, field: string, up: bool): (r: Reply<string>)
    ensures r.Ok? <==> up && FitsHash(db, key) && FieldOf(db, key, field).Some?
    ensures r.Ok? ==> Some(r.value) == FieldOf(db, key, field)
    ensures up && FitsHash(db, key) && FieldOf(db, key, field).None? ==> r == Err(NotFound)
  {
    match Refusal(up, FitsHash(db, key))
    case Some(e) => Err(e)
    case None => if field in Fields(db, key) then Ok(Fields(db, key)[field]) else Err(NotFound)
  }

  /** HDEL key field. */
  function HDel(db: Db, key: string, field: string, up: bool): (r: Step<()>)
    ensures r.reply.Ok? <==> up && FitsHash(db, key)
    ensures r.reply.Err? ==> r.db == db
    ensures r.reply.Ok? ==> FieldOf(r.db, key, field).None?
    ensures r.reply.Ok? ==> forall f :: f != field ==> FieldOf(r.db, key, f) == FieldOf(db, key, f)
    ensures r.reply.Ok? ==> r.db - {key} == db - {key}
    ensures Tidy(db) ==> Tidy(r.db)
  {
    match Refusal(up, FitsHash(db, key))
    case Some(e) => Step(db, Err(e))
    case None => Step(Put(db, key, Hash(Fields(db, key) - {field})), Ok(()))
  }

  /** LPUSH key value: prepends to the list. */
  function LPush(db: Db, key: string, value: string, up: bool): (r: Step<()>)
    ensures r.reply.Ok? <==> up && FitsList(db, key)
    ensures r.reply.Err? ==> r.db == db
    ensures r.reply.Ok? ==> Items(r.db, key) == [value] + Items(db, key) && FitsList(r.db, key)
    ensures r.db - {key} == db - {key}
    ensures Tidy(db) ==> Tidy(r.db)
  {
    match Refusal(up, FitsList(db, key))
    case Some(e) => Step(db, Err(e))
    case None => Step(db[key := List([value] + Items(db, key))], Ok(()))
  }

  /** LPOP key: removes and returns the head of the list; an empty list answers nil. */
  function LPop(db: Db, key: string, up: bool): (r: Step<string>)
    ensures r.reply.Ok? <==> up && FitsList(db, key) && Items(db, key) != []
    ensures r.reply.Err? ==> r.db == db
    ensures r.reply.Ok? ==> r.reply.value == Items(db, key)[0] && Items(r.db, key) == Items(db, key)[1..]
    ensures r.db - {key} == db - {key}
    ensures Tidy(db) ==> Tidy(r.db)
  {
    match Refusal(up, FitsList(db, key))
    case Some(e) => Step(db, Err(e))
    case None =>
      var xs := Items(db, key);
      if xs == [] then Step(db, Err(NotFound)) else Step(Put(db, key, List(xs[1..])), Ok(xs[0]))
  }
}
